=== FILE: README.md ===
# Dev manifest and dev orchestration of vinxi, modelled in Dafny

This project models the core of vinxi's development mode:

- `createApp` (`lib/app.js`) normalises the declared bundlers and routers. Bundlers get a
  default target and root, and their `outDir` is joined onto the application root. Routers
  get their declaration index and their bundler. Routers are found by name. A placeholder
  manifest refuses every access.
- `createDevManifest` (`lib/manifest/dev-server-manifest.js`) answers
  `manifest[name].inputs[path]`. It gates on the router mode and checks that the router owns
  the input. It then returns an entry with an output path that depends on the target, and an
  ordered asset list. That list holds the plugin-injected tags re-keyed `plugin-<n>`, one
  inline stylesheet per collected module, and the Vite client script for a handler.
- `createDevServer` (`lib/dev-server.js`) decides the rest of dev mode. It builds the entry
  list and the plugin array for each router. It gives each router the live-reload port
  `ws.port + index` and picks how requests are dispatched. It applies the option defaults and
  the `dev` gate. It splits routers into static public assets and dev handlers.

The JavaScript proxies become explicit accessor functions (`ReadManifest`,
`GetBundlerManifest`, `GetInput`, `EntryAssets`). Thrown errors become `Result` values. The
global manifest becomes a two-state `ManifestSlot`. `Promise.all` becomes an
order-preserving sequential map. `process.cwd()` becomes a `root` parameter. The path library
(`isAbsolute`, `join`, `relative`) is a `PathOps` parameter whose functions are
uninterpreted, so every property holds whatever they compute. The live Vite server seen by
`assets()` is a `ServerView` parameter: its plugins with their `transformIndexHtml` results,
and the style collector as a function of the traversal roots. The per-mode router resolver
`resolveConfig` is a `RouterResolver` parameter.

Modules: `Wrappers` (Option, Result), `Text` (truthiness, decimal rendering), `Seqs`
(`find`, `findIndex`, `filter`, and `AllOrFirstFailure` standing for `Promise.all`),
`Paths`, `Config` (app.js), `Assets` (tag descriptors), `DevManifest`
(dev-server-manifest.js), `DevServer` (dev-server.js).

Points where the code's behaviour may surprise a reader. The model follows the code in each:

- The manifest accessor's key is called `bundlerName`, but it is passed to `getRouter`
  (`lib/manifest/dev-server-manifest.js:18`). So a manifest is found by ROUTER name, and the
  error message at line 53 still speaks of a bundler.
- `isHandler` (line 47) compares `router.handler`, as the router resolver returns it, with
  `relative(root, input)`. This code does not itself make the handler relative to the root.
- Only the browser branch ends in `.filter(Boolean)` (line 115). A non-browser entry
  (lines 124-147) always has `plugins + styles + 1` slots, and the last one is `undefined` for
  a non-handler. The browser branch traverses styles from `absolutePath` (line 94). The
  non-browser branch traverses them from the raw `input` (line 127).
- `createDevServer` installs the dev manifest (`lib/dev-server.js:105-106`) before any dev
  server is created (line 122). The manifest stays installed when a dev server fails to start.
- `outDir` (`lib/app.js:13`) and `dir` (`lib/manifest/dev-server-manifest.js:49`) are read for truthiness, so an empty string
  counts as absent.

## Model

| member | source | states |
|---|---|---|
| Config.NormalizeBundler | packages/vinxi/lib/app.js:12-20 | target defaults to "static" and root to the app root unless declared; a truthy `outDir` becomes `join(appRoot, outDir)`, otherwise it is absent; name and plugins are kept |
| Config.CreateApp | packages/vinxi/lib/app.js:12-37 | both lists keep length and order; router k has index k over the resolver's fields; its bundler is the first DECLARED (not normalised) bundler named by `build`; the manifest slot is the placeholder |
| Config.FindBundler | packages/vinxi/lib/app.js:25 | present iff some declared bundler has the name, and then it is the first one that does |
| Config.CreatedIndicesDistinct | packages/vinxi/lib/app.js:22-28 | the routers of a created app have pairwise distinct indices |
| Config.GetRouter | packages/vinxi/lib/app.js:41-43 | present iff some router has the name, and then it is the first router with that name |
| Config.PlaceholderGet | packages/vinxi/lib/app.js:30-37 | every property read of the placeholder fails with "Manifest not yet ready" |
| DevManifest.ReadManifest | packages/vinxi/lib/manifest/dev-server-manifest.js:11-28 | the placeholder (`lib/app.js:30-37`) refuses every bundler name; the manifest installed by `createDevServer` (`lib/dev-server.js:105-106`) answers exactly as `manifest[name]` of the dev manifest |
| DevManifest.CreatedAppNotReady | packages/vinxi/lib/app.js:30-37 | the manifest of an app fresh from `createApp` refuses every bundler name with "Manifest not yet ready" |
| DevManifest.GetBundlerManifest | packages/vinxi/lib/manifest/dev-server-manifest.js:15-35 | succeeds iff `getRouter` finds a router whose mode is build, handler, spa or node-handler; other modes fail naming the mode; the result exposes that router's handler |
| DevManifest.GetInput | packages/vinxi/lib/manifest/dev-server-manifest.js:39-153 | resolves iff the router owns the input (handler equals `relative(root, input)`, or a truthy `dir` prefixes the absolute path) and has a bundler; not-found naming input and bundler when the router does not own the input; a TypeError when it does but has no bundler; browser output is `join(prefix, "@fs", abs)` with styles from `abs`, any other target outputs `abs` with styles from the raw input |
| Paths.ToAbsolute | packages/vinxi/lib/manifest/dev-server-manifest.js:41-43 | an absolute input is kept as it is; any other is joined onto the root |
| DevManifest.AbsoluteInputKept | packages/vinxi/lib/manifest/dev-server-manifest.js:41-43 | an absolute input is its own absolute path, and a non-browser entry outputs exactly it |
| DevManifest.RelativeInputJoined | packages/vinxi/lib/manifest/dev-server-manifest.js:41-43 | a relative input becomes `join(root, input)` |
| DevManifest.EntryAssets | packages/vinxi/lib/manifest/dev-server-manifest.js:87-153 | a browser entry's asset list has no empty slot; a non-browser entry keeps every slot, as `EntryAssetsLayout` and `EntryAssetsTail` state |
| DevManifest.EntryAssetsLayout | packages/vinxi/lib/manifest/dev-server-manifest.js:87-147 | assets are plugin assets ++ stylesheets ++ (client script for a handler; nothing for a browser non-handler; one empty slot otherwise) |
| DevManifest.EntryAssetsPluginsFirst | packages/vinxi/lib/manifest/dev-server-manifest.js:90-91 | the asset list starts with the re-keyed plugin assets, position by position |
| DevManifest.EntryAssetsStylesNext | packages/vinxi/lib/manifest/dev-server-manifest.js:92-104 | right after the plugin assets comes one stylesheet per collected module, in collector order |
| DevManifest.EntryAssetsTail | packages/vinxi/lib/manifest/dev-server-manifest.js:105-114 | browser length is plugins + styles (+1 for a handler); non-browser length is always plugins + styles + 1; the last slot is the client script for a handler, and empty for a non-browser non-handler |
| DevManifest.FilterSlots | packages/vinxi/lib/manifest/dev-server-manifest.js:105-115 | dropping falsy slots keeps every present asset in order and removes only the missing client script |
| DevManifest.BootstrapOnlyForHandler | packages/vinxi/lib/manifest/dev-server-manifest.js:105-114 | a handler entry has exactly one bootstrap script, in the last slot; a non-handler entry has none |
| DevManifest.SiblingHasNoBootstrap | packages/vinxi/lib/manifest/dev-server-manifest.js:137-146 | an input owned only through `dir` never carries the bootstrap script |
| Assets.SetAttr | packages/vinxi/lib/manifest/dev-server-manifest.js:79-82 | after the attribute spread, the set name reads the new value and every other name reads as before |
| Assets.SetAttrShape | packages/vinxi/lib/manifest/dev-server-manifest.js:79-82 | setting an existing name keeps the length, a new name is appended last, and the name set grows by exactly that name |
| Assets.SetAttrKeepsPlaces | packages/vinxi/lib/manifest/dev-server-manifest.js:79-82 | an existing attribute keeps its place: every existing position keeps its name, and every attribute with another name is kept as it was |
| Assets.SetAttrKeepsUnique | packages/vinxi/lib/manifest/dev-server-manifest.js:79-82 | the spread never creates a duplicate attribute name |
| Assets.HookTags | packages/vinxi/lib/manifest/dev-server-manifest.js:68-73 | an array result contributes all its tags, an object its `tags` (none when absent), a falsy or HTML-string result nothing |
| Assets.InjectedTags | packages/vinxi/lib/manifest/dev-server-manifest.js:56-74 | a tag is injected iff some plugin that has the hook contributes it; a single plugin contributes exactly its hook's tags, in full and in order (with `InjectedTagsConcat` this fixes the whole flattening) |
| Assets.PluginAssets | packages/vinxi/lib/manifest/dev-server-manifest.js:56-85 | one asset per injected tag, in order, keeping tag, children and `injectTo`, with `key` reading `plugin-<position>` |
| Assets.InjectedTagsConcat | packages/vinxi/lib/manifest/dev-server-manifest.js:56-74 | hook results are flattened in plugin order: the tags of a concatenated plugin list are the concatenated tags |
| Assets.KeyPluginAssets | packages/vinxi/lib/manifest/dev-server-manifest.js:76-84 | the i-th tag's `key` reads `plugin-i`, overriding any earlier key; tag, children, other fields and every other attribute are kept |
| Assets.PluginAssetKeysDistinct | packages/vinxi/lib/manifest/dev-server-manifest.js:76-84 | plugin asset keys are pairwise distinct and never `vite-client` |
| Assets.PluginKeyFacts | packages/vinxi/lib/manifest/dev-server-manifest.js:81 | different positions give different `plugin-<n>` keys, none equal to `vite-client` |
| Text.NatToStringInjective | packages/vinxi/lib/manifest/dev-server-manifest.js:81 | the decimal rendering of an index in the key template is injective |
| Assets.StyleAsset | packages/vinxi/lib/manifest/dev-server-manifest.js:96-104 | a `style` tag of type text/css whose key and `data-vite-dev-id` are the module key and whose children are its text |
| Assets.StyleAssets | packages/vinxi/lib/manifest/dev-server-manifest.js:92-104 | one stylesheet per collected module, in collector order |
| Assets.ViteClientScript | packages/vinxi/lib/manifest/dev-server-manifest.js:105-114 | a module `script` keyed `vite-client` with src `join(prefix, "@vite", "client")` |
| DevServer.GetEntries | packages/vinxi/lib/dev-server.js:10-15 | the handler first, then every file-router route's file path in order; just the handler without a file router |
| DevServer.TargetBundle | packages/vinxi/lib/dev-server.js:46-49 | "browser" gives the CSS plugin, "node" gives none, any other or missing target gives undefined |
| DevServer.PluginsFor | packages/vinxi/lib/dev-server.js:55-60 | dev entries, manifest plugin, target bundle, then the bundler's own plugins in order; a router without a bundler fails |
| DevServer.ViteConfigFor | packages/vinxi/lib/dev-server.js:52-69 | base is the router prefix, middleware mode is on, the live-reload port is `ws.port + index` |
| DevServer.DispatchFor | packages/vinxi/lib/dev-server.js:73-82 | node-handler loads "./app/server.tsx" on every request; every other mode forwards to the middlewares |
| DevServer.DevHandlerFor | packages/vinxi/lib/dev-server.js:85-90 | the handler is tagged with the router prefix and starts iff the router has a bundler and its dev server starts; a missing bundler is a TypeError, a failed start a start-up failure |
| Seqs.AllOrFirstFailure | packages/vinxi/lib/dev-server.js:119-123 | every result in order when every call succeeds; otherwise exactly the error of the first failing call, all calls before it succeeding |
| DevServer.DevHandlersFor | packages/vinxi/lib/dev-server.js:118-124 | all handlers in router order when every router starts; otherwise the error of the first router, in router order, whose handler fails, passed on unchanged |
| DevServer.PublicAssets | packages/vinxi/lib/dev-server.js:111-117 | exactly the static routers, in order, each as `{dir, baseURL: prefix, passthrough: true}` |
| DevServer.RoutersPartitioned | packages/vinxi/lib/dev-server.js:111-124 | static and non-static routers together are a permutation of all routers, each router on exactly one side |
| DevServer.ServeConfigOf | packages/vinxi/lib/dev-server.js:92-102 | port defaults to 3000, dev to off, the live-reload base port to 16000 |
| DevServer.HmrPort | packages/vinxi/lib/dev-server.js:66 | a router's live-reload port is offset from the base port by exactly its index |
| DevServer.Launches | packages/vinxi/lib/dev-server.js:119-122 | every step is a dev server creation, at most one per router |
| DevServer.LaunchesPerRouter | packages/vinxi/lib/dev-server.js:119-122 | one dev server per router that has a bundler, configured for that router, in router order |
| DevServer.StartDev | packages/vinxi/lib/dev-server.js:104-127 | the manifest is installed first, then the dev servers of the dynamic routers in order; the run serves iff every dev handler starts, and then it ends by creating Nitro with the static routers and the handlers and listening on the port; otherwise it fails with the handlers' error |
| DevServer.CreateDevServer | packages/vinxi/lib/dev-server.js:92-129 | the options' defaults are applied; without dev nothing happens and the slot is unchanged; with dev the run is the dev branch's |
| DevServer.FailedRunNeverListens | packages/vinxi/lib/dev-server.js:118-127 | a failed run never creates Nitro and never listens |
| DevServer.DynamicRouterLaunched | packages/vinxi/lib/dev-server.js:119-122 | with dev set, every non-static router that has a bundler gets its dev server created, configured for it |
| DevServer.DevRunManifest | packages/vinxi/lib/dev-server.js:104-106 | after a dev run every name reads the dev manifest; without dev the slot reads as before |
| DevServer.HmrPortsDistinct | packages/vinxi/lib/dev-server.js:65-67 | when every dev handler starts, routers with distinct indices give the handlers pairwise distinct live-reload ports |
| DevServer.CreatedAppHmrPortsDistinct | packages/vinxi/lib/dev-server.js:65-67 | in a serving run over an app built by `createApp`, every dev handler has its own live-reload port |
| DevServer.LaunchedPortsDistinct | packages/vinxi/lib/dev-server.js:65-67 | for routers with distinct indices, every dev server created (one per dynamic router with a bundler, lines 119-122) has its own live-reload port, whether or not the run ends up serving |
| DevServer.CreatedAppLaunchedPortsDistinct | packages/vinxi/lib/dev-server.js:65-67 | every dev server created for an app built by `createApp` has its own live-reload port, in a failed run as in a serving one |

## Left out

- Creating Vite and Nitro servers, `ssrLoadModule`, the middlewares, h3 handler wrapping and `listen` are foreign I/O. They appear only as steps of a `DevRun` and as `Dispatch` tags. A failed start is the `failing` parameter.
- The style collector (`findStylesInModuleGraph`) and the execution of `transformIndexHtml` hooks are external. They are the `ServerView` inputs: an ordered list of modules and one result per plugin.
- `resolveConfig` from `lib/router/node-handler.js` is not part of this model. It is the `RouterResolver` parameter.
- The path library is uninterpreted. Properties that depend on what `join` computes, such as an `@fs` path starting with its router's prefix, are not stated.
- The `typeof` string checks on bundler names and inputs are left out: names and inputs are strings by type.
- Reading `mode` or `target` of `undefined` appears as a `TypeError` result, not as a JavaScript exception.
- `json()` and the top-level `assets()` of a bundler manifest return an empty object. They are not modelled.
- The absence of caching (each `assets()` call recomputes) and the concurrency of `Promise.all` are not modelled. `assets()` is a pure function of the server view, so repeated calls agree when the view is unchanged. The call count is not modelled.
- DevServer.DevHandlersFor: when several dev servers fail, `Promise.all` rejects with the earliest failure in time. The model reports the first failure in router order.
- Attribute values are strings. The boolean attributes of tag descriptors and the number-like-key ordering of JavaScript objects are not modelled.
- A declared field that is present but explicitly `undefined` is modelled as absent.
- `devPlugin` lookups of inherited object keys, such as a target named "toString", are not modelled.
- A router's `devServer` handle is not stored on the router. `assets()` receives it as the `ServerView` argument.
- DevManifest.EntryAssets: the source reads the dev server at two different times. The style collector gets the `viteServer` captured when `manifest[name]` is read (`lib/manifest/dev-server-manifest.js:27`, used at lines 93 and 127). The plugins are read from `router.devServer` on every `assets()` call (line 57). The model passes one `ServerView` for both. So it does not model a bundler manifest read before its router's dev server exists (`lib/dev-server.js:105-106` runs before line 71), whose style collector then receives `undefined`.
- DevServer.ServeConfigOf: the options argument is always present, and its `ws` field is absent or an object. The source gives the options parameter no default (`lib/dev-server.js:92-95`). So `createDevServer(app)` without options, or `ws: null`, throws a TypeError while destructuring, and that error is not modelled.

=== FILE: app.dfy ===
/** Application description normalisation (`createApp` in lib/app.js):
    bundler defaults and output directories, router positions and bundler
    references, first-match router lookup, and the placeholder manifest that
    refuses every access until the dev server installs the real one. */
module Config {
  import opened Wrappers
  import opened Text
  import opened Seqs
  import opened Paths

  /** The errors the engine raises. `TypeError` stands for reading a property of
      `undefined`; `StartupFailure` for a dev server whose creation rejects. */
  datatype Error =
    | NotReady(message: string)
    | InvalidArgument(message: string)
    | NotFound(message: string)
    | TypeError(message: string)
    | StartupFailure(message: string)

  const NotReadyMessage := "Manifest not yet ready"
  const DefaultTarget := "static"

  /** A bundler as declared, or after normalisation; `None` is a field the object lacks.
      `plugins` is what the bundler's `plugins()` returns, `None` when it has none. */
  datatype Bundler = Bundler(
    name: string,
    target: Option<string>,
    root: Option<string>,
    outDir: Option<string>,
    plugins: Option<seq<string>>)

  datatype Route = Route(filePath: string)
  datatype FileRouter = FileRouter(routes: seq<Route>)

  /** A router as the user declares it; `build` names its bundler. */
  datatype RouterDecl = RouterDecl(
    name: string,
    mode: string,
    build: string,
    base: Option<string>,
    dir: Option<string>,
    handler: Option<string>)

  /** A resolved router. `index` is its declaration position and `bundler` the
      declared bundler it builds with. */
  datatype Router = Router(
    name: string,
    mode: string,
    prefix: string,
    dir: Option<string>,
    handler: Option<string>,
    fileRouter: Option<FileRouter>,
    bundler: Option<Bundler>,
    index: int)

  /** The configuration as it stands while routers are resolved: bundlers are
      already normalised, routers are still the declarations. */
  datatype PendingConfig = PendingConfig(root: string, bundlers: seq<Bundler>, routers: seq<RouterDecl>)

  /** The per-mode router resolver (`resolveConfig`), which is not part of this model. */
  type RouterResolver = (RouterDecl, PendingConfig) -> Router

  datatype AppConfig = AppConfig(root: string, bundlers: seq<Bundler>, routers: seq<Router>)

  /** The process-wide manifest slot: the failing placeholder, or the dev manifest. */
  datatype ManifestSlot = Placeholder | DevManifestInstalled

  datatype App = App(config: AppConfig, manifest: ManifestSlot)

  /** One bundler with its defaults: declared fields win over the defaults, and
      `outDir` is always replaced by its join onto the application root. */
  function NormalizeBundler(ops: PathOps, root: string, b: Bundler): (r: Bundler)
    ensures r.name == b.name && r.plugins == b.plugins
    ensures r.target.Some? && r.root.Some?
    ensures b.target.Some? ==> r.target == b.target
    ensures b.target.None? ==> r.target == Some(DefaultTarget)
    ensures b.root.Some? ==> r.root == b.root
    ensures b.root.None? ==> r.root == Some(root)
    ensures Truthy(b.outDir) ==> r.outDir == Some(ops.join([root, b.outDir.value]))
    ensures !Truthy(b.outDir) ==> r.outDir.None?
  {
    var outDir := if Truthy(b.outDir) then Some(ops.join([root, b.outDir.value])) else None;
    Bundler(b.name, Some(b.target.GetOr(DefaultTarget)), Some(b.root.GetOr(root)), outDir, b.plugins)
  }

  /** The first declared bundler named `name`, or absent. */
  function FindBundler(bundlers: seq<Bundler>, name: string): (r: Option<Bundler>)
    ensures r.Some? <==> exists i :: 0 <= i < |bundlers| && bundlers[i].name == name
    ensures r.Some? ==> exists i :: 0 <= i < |bundlers| && bundlers[i] == r.value && bundlers[i].name == name
                          && forall j :: 0 <= j < i ==> bundlers[j].name != name
  {
    Find(bundlers, (b: Bundler) => b.name == name)
  }

  /** `createApp`: normalises every bundler, resolves every router, attaches its
      position and its bundler (looked up among the bundlers AS DECLARED, not the
      normalised ones), and installs the placeholder manifest. */
  function CreateApp(ops: PathOps, resolve: RouterResolver, root: string,
                     routers: seq<RouterDecl>, bundlers: seq<Bundler>): (app: App)
    ensures app.manifest == Placeholder
    ensures app.config.root == root
    ensures |app.config.bundlers| == |bundlers|
    ensures forall i :: 0 <= i < |bundlers| ==> app.config.bundlers[i] == NormalizeBundler(ops, root, bundlers[i])
    ensures |app.config.routers| == |routers|
    ensures forall k :: 0 <= k < |routers| ==> app.config.routers[k].index == k
    ensures forall k :: 0 <= k < |routers| ==> app.config.routers[k].bundler == FindBundler(bundlers, routers[k].build)
    ensures forall k :: 0 <= k < |routers| ==>
              var resolved := resolve(routers[k], PendingConfig(root, app.config.bundlers, routers));
              app.config.routers[k] == resolved.(bundler := app.config.routers[k].bundler, index := k)
  {
    var normalized := seq(|bundlers|, i requires 0 <= i < |bundlers| => NormalizeBundler(ops, root, bundlers[i]));
    var pending := PendingConfig(root, normalized, routers);
    var resolved := seq(|routers|, k requires 0 <= k < |routers| =>
      resolve(routers[k], pending).(bundler := FindBundler(bundlers, routers[k].build), index := k));
    App(AppConfig(root, normalized, resolved), Placeholder)
  }

  /** Router positions are pairwise distinct. */
  predicate IndicesDistinct(routers: seq<Router>) {
    forall i, j :: 0 <= i < j < |routers| ==> routers[i].index != routers[j].index
  }

  /** Every router of a created application has its own index. */
  lemma CreatedIndicesDistinct(ops: PathOps, resolve: RouterResolver, root: string,
                               routers: seq<RouterDecl>, bundlers: seq<Bundler>)
    ensures IndicesDistinct(CreateApp(ops, resolve, root, routers, bundlers).config.routers)
  {
  }

  /** `getRouter`: the first router with the given name, or absent. */
  function GetRouter(config: AppConfig, name: string): (r: Option<Router>)
    ensures r.Some? <==> exists i :: 0 <= i < |config.routers| && config.routers[i].name == name
    ensures r.Some? ==> exists i :: 0 <= i < |config.routers| && config.routers[i] == r.value && r.value.name == name
                          && forall j :: 0 <= j < i ==> config.routers[j].name != name
  {
    Find(config.routers, (router: Router) => router.name == name)
  }

  /** Reading any property of the placeholder manifest throws "Manifest not yet ready". */
  function PlaceholderGet(prop: string): (r: Result<(), Error>)
    ensures r.Failure? && r.error == NotReady(NotReadyMessage)
  {
    Failure(NotReady(NotReadyMessage))
  }
}

=== FILE: assets.dfy ===
/** Head-tag descriptors and how the dev manifest builds them: the attribute
    object with its key order, the flattening of `transformIndexHtml` hook
    results, the `plugin-<n>` re-keying, stylesheet tags and the Vite client
    bootstrap script (lib/manifest/dev-server-manifest.js). */
module Assets {
  import opened Wrappers
  import opened Text
  import opened Paths

  /** One attribute; an attribute object is a sequence of them in insertion order. */
  datatype Attr = Attr(name: string, value: string)

  /** A tag descriptor. `injectTo` stands for the descriptor fields the manifest copies untouched. */
  datatype Asset = Asset(tag: string, attrs: seq<Attr>, children: Option<string>, injectTo: Option<string>)

  /** What a plugin's `transformIndexHtml` hook returns for an empty document. */
  datatype HookResult =
    | Falsy                                  // undefined, null, false or ""
    | TagList(list: seq<Asset>)              // an array of tag descriptors
    | Descriptor(tags: Option<seq<Asset>>)   // an object, maybe with a `tags` array
    | Html(html: string)                     // a non-empty HTML string

  /** A plugin of the live dev server; `hook` is `None` when it has no `transformIndexHtml`. */
  datatype ServerPlugin = ServerPlugin(name: string, hook: Option<HookResult>)

  /** A stylesheet module the style collector reports: its module key and its CSS text. */
  datatype StyleModule = StyleModule(key: string, text: string)

  const KeyAttr := "key"
  const ViteClientKey := "vite-client"

  /** The value of attribute `name`, as property access on the attribute object reads it. */
  function Lookup(attrs: seq<Attr>, name: string): (r: Option<string>)
    ensures r.None? <==> forall i :: 0 <= i < |attrs| ==> attrs[i].name != name
    ensures r.Some? ==> exists i :: 0 <= i < |attrs| && attrs[i] == Attr(name, r.value)
  {
    if |attrs| == 0 then None
    else if attrs[0].name == name then Some(attrs[0].value)
    else Lookup(attrs[1..], name)
  }

  function Names(attrs: seq<Attr>): set<string> {
    set i | 0 <= i < |attrs| :: attrs[i].name
  }

  /** The names of an attribute list are its head's name and its tail's names. */
  lemma NamesCons(x: Attr, rest: seq<Attr>)
    ensures Names([x] + rest) == {x.name} + Names(rest)
  {
    var a := [x] + rest;
    forall n | n in Names(a)
      ensures n in {x.name} + Names(rest)
    {
      var i :| 0 <= i < |a| && a[i].name == n;
      if i > 0 {
        assert rest[i - 1].name == n;
      }
    }
    forall n | n in Names(rest)
      ensures n in Names(a)
    {
      var i :| 0 <= i < |rest| && rest[i].name == n;
      assert a[i + 1].name == n;
    }
    assert a[0].name == x.name;
  }

  /** Looking up a name in a list reads its head first, then its tail. */
  lemma LookupCons(x: Attr, rest: seq<Attr>, n: string)
    ensures Lookup([x] + rest, n) == if x.name == n then Some(x.value) else Lookup(rest, n)
  {
    assert ([x] + rest)[1..] == rest;
  }

  predicate UniqueNames(attrs: seq<Attr>) {
    forall i, j :: 0 <= i < j < |attrs| ==> attrs[i].name != attrs[j].name
  }

  /** `{...attrs, [name]: value}`: the attribute reads `value` afterwards and
      every other attribute reads as before. */
  function SetAttr(attrs: seq<Attr>, name: string, value: string): (r: seq<Attr>)
    ensures Lookup(r, name) == Some(value)
    ensures forall n :: n != name ==> Lookup(r, n) == Lookup(attrs, n)
  {
    if |attrs| == 0 then [Attr(name, value)]
    else if attrs[0].name == name then [Attr(name, value)] + attrs[1..]
    else
      var rest := SetAttr(attrs[1..], name, value);
      assert ([attrs[0]] + rest)[1..] == rest;
      [attrs[0]] + rest
  }

  /** An existing name keeps the length; a new one is appended last. */
  lemma {:induction false} SetAttrShape(attrs: seq<Attr>, name: string, value: string)
    ensures Names(SetAttr(attrs, name, value)) == Names(attrs) + {name}
    ensures name in Names(attrs) ==> |SetAttr(attrs, name, value)| == |attrs|
    ensures name !in Names(attrs) ==> SetAttr(attrs, name, value) == attrs + [Attr(name, value)]
    decreases |attrs|
  {
    if |attrs| > 0 {
      assert attrs == [attrs[0]] + attrs[1..];
      NamesCons(attrs[0], attrs[1..]);
      if attrs[0].name == name {
        NamesCons(Attr(name, value), attrs[1..]);
      } else {
        SetAttrShape(attrs[1..], name, value);
        NamesCons(attrs[0], SetAttr(attrs[1..], name, value));
      }
    }
  }

  /** Every existing position keeps its name, and every other attribute is kept
      as it was: only the value of `name` changes in place. */
  lemma {:induction false} SetAttrKeepsPlaces(attrs: seq<Attr>, name: string, value: string)
    ensures |SetAttr(attrs, name, value)| >= |attrs|
    ensures forall i :: 0 <= i < |attrs| ==> SetAttr(attrs, name, value)[i].name == attrs[i].name
    ensures forall i :: 0 <= i < |attrs| && attrs[i].name != name ==> SetAttr(attrs, name, value)[i] == attrs[i]
    decreases |attrs|
  {
    if |attrs| > 0 && attrs[0].name != name {
      var rest := SetAttr(attrs[1..], name, value);
      SetAttrKeepsPlaces(attrs[1..], name, value);
      assert SetAttr(attrs, name, value) == [attrs[0]] + rest;
      forall i | 1 <= i < |attrs|
        ensures SetAttr(attrs, name, value)[i].name == attrs[i].name
        ensures attrs[i].name != name ==> SetAttr(attrs, name, value)[i] == attrs[i]
      {
        assert SetAttr(attrs, name, value)[i] == rest[i - 1];
        assert attrs[i] == attrs[1..][i - 1];
      }
    }
  }

  /** Setting an attribute never creates a duplicate name. */
  lemma SetAttrKeepsUnique(attrs: seq<Attr>, name: string, value: string)
    requires UniqueNames(attrs)
    ensures UniqueNames(SetAttr(attrs, name, value))
  {
    var r := SetAttr(attrs, name, value);
    SetAttrShape(attrs, name, value);
    SetAttrKeepsPlaces(attrs, name, value);
    if name !in Names(attrs) {
      forall i | 0 <= i < |attrs|
        ensures r[i].name != r[|attrs|].name
      {
        assert attrs[i].name in Names(attrs);
      }
    }
  }

  /** The tags one hook result contributes: an array in full, an object its `tags`,
      anything else nothing. */
  function HookTags(h: HookResult): (r: seq<Asset>)
    ensures h.TagList? ==> r == h.list
    ensures h.Descriptor? ==> r == (if h.tags.Some? then h.tags.value else [])
    ensures h.Falsy? || h.Html? ==> r == []
  {
    match h
    case TagList(tags) => tags
    case Descriptor(tags) => tags.GetOr([])
    case Falsy => []
    case Html(_) => []
  }

  /** All injected tags, flattened in plugin order; plugins without the hook are skipped. */
  function InjectedTags(plugins: seq<ServerPlugin>): (r: seq<Asset>)
    ensures forall a :: a in r <==>
              exists i :: 0 <= i < |plugins| && plugins[i].hook.Some? && a in HookTags(plugins[i].hook.value)
    ensures |plugins| == 1 ==> r == (if plugins[0].hook.Some? then HookTags(plugins[0].hook.value) else [])
  {
    if |plugins| == 0 then []
    else
      (if plugins[0].hook.Some? then HookTags(plugins[0].hook.value) else []) + InjectedTags(plugins[1..])
  }

  /** Flattening a concatenation of plugin lists keeps the lists' order. */
  lemma {:induction false} InjectedTagsConcat(a: seq<ServerPlugin>, b: seq<ServerPlugin>)
    ensures InjectedTags(a + b) == InjectedTags(a) + InjectedTags(b)
    decreases |a|
  {
    if |a| == 0 {
      assert a + b == b;
    } else {
      assert (a + b)[1..] == a[1..] + b;
      InjectedTagsConcat(a[1..], b);
    }
  }

  /** The synthetic key of the `index`-th injected tag. */
  function PluginKey(index: nat): string {
    "plugin-" + NatToString(index)
  }

  /** Distinct positions get distinct keys, and no key is the bootstrap script's. */
  lemma PluginKeyFacts(i: nat, j: nat)
    ensures i != j ==> PluginKey(i) != PluginKey(j)
    ensures PluginKey(i) != ViteClientKey
  {
    if PluginKey(i) == PluginKey(j) {
      PrefixedInjective("plugin-", NatToString(i), NatToString(j));
      NatToStringInjective(i, j);
    }
    assert PluginKey(i)[0] == 'p';
  }

  /** Every injected tag, with its `key` attribute set to `plugin-<position>`. */
  function KeyPluginAssets(tags: seq<Asset>): (r: seq<Asset>)
    ensures |r| == |tags|
    ensures forall i :: 0 <= i < |r| ==>
              r[i].tag == tags[i].tag && r[i].children == tags[i].children && r[i].injectTo == tags[i].injectTo
    ensures forall i :: 0 <= i < |r| ==> Lookup(r[i].attrs, KeyAttr) == Some(PluginKey(i))
    ensures forall i, n :: 0 <= i < |r| && n != KeyAttr ==> Lookup(r[i].attrs, n) == Lookup(tags[i].attrs, n)
  {
    seq(|tags|, i requires 0 <= i < |tags| => tags[i].(attrs := SetAttr(tags[i].attrs, KeyAttr, PluginKey(i))))
  }

  /** `getVitePluginAssets`: the injected tags of the server's plugins, re-keyed. */
  function PluginAssets(plugins: seq<ServerPlugin>): (r: seq<Asset>)
    ensures |r| == |InjectedTags(plugins)|
    ensures forall i :: 0 <= i < |r| ==>
              var tag := InjectedTags(plugins)[i];
              r[i].tag == tag.tag && r[i].children == tag.children && r[i].injectTo == tag.injectTo
    ensures forall i :: 0 <= i < |r| ==> Lookup(r[i].attrs, KeyAttr) == Some(PluginKey(i))
  {
    KeyPluginAssets(InjectedTags(plugins))
  }

  /** The plugin assets carry pairwise distinct keys, none of them the bootstrap script's. */
  lemma PluginAssetKeysDistinct(plugins: seq<ServerPlugin>)
    ensures forall i, j :: 0 <= i < j < |PluginAssets(plugins)| ==>
              Lookup(PluginAssets(plugins)[i].attrs, KeyAttr) != Lookup(PluginAssets(plugins)[j].attrs, KeyAttr)
    ensures forall i :: 0 <= i < |PluginAssets(plugins)| ==>
              Lookup(PluginAssets(plugins)[i].attrs, KeyAttr) != Some(ViteClientKey)
  {
    var r := PluginAssets(plugins);
    forall i, j | 0 <= i < j < |r|
      ensures Lookup(r[i].attrs, KeyAttr) != Lookup(r[j].attrs, KeyAttr)
    {
      PluginKeyFacts(i, j);
    }
    forall i | 0 <= i < |r|
      ensures Lookup(r[i].attrs, KeyAttr) != Some(ViteClientKey)
    {
      PluginKeyFacts(i, i);
    }
  }

  /** The inline stylesheet emitted for one collected module. */
  function StyleAsset(m: StyleModule): (a: Asset)
    ensures a.tag == "style" && a.children == Some(m.text)
    ensures Lookup(a.attrs, "type") == Some("text/css")
    ensures Lookup(a.attrs, KeyAttr) == Some(m.key) && Lookup(a.attrs, "data-vite-dev-id") == Some(m.key)
  {
    var attrs := [Attr("type", "text/css"), Attr(KeyAttr, m.key), Attr("data-vite-dev-id", m.key)];
    LookupCons(attrs[0], attrs[1..], "data-vite-dev-id");
    LookupCons(attrs[1], attrs[2..], "data-vite-dev-id");
    Asset("style", attrs, Some(m.text), None)
  }

  /** One stylesheet per collected module, in the collector's order. */
  function StyleAssets(modules: seq<StyleModule>): (r: seq<Asset>)
    ensures |r| == |modules|
    ensures forall i :: 0 <= i < |r| ==> r[i] == StyleAsset(modules[i])
  {
    seq(|modules|, i requires 0 <= i < |modules| => StyleAsset(modules[i]))
  }

  /** The Vite client module script a handler entry bootstraps with. */
  function ViteClientScript(ops: PathOps, prefix: string): (a: Asset)
    ensures a.tag == "script" && a.children.None?
    ensures Lookup(a.attrs, KeyAttr) == Some(ViteClientKey)
    ensures Lookup(a.attrs, "type") == Some("module")
    ensures Lookup(a.attrs, "src") == Some(ops.join([prefix, "@vite", "client"]))
  {
    var attrs := [Attr(KeyAttr, ViteClientKey), Attr("type", "module"), Attr("src", ops.join([prefix, "@vite", "client"]))];
    LookupCons(attrs[0], attrs[1..], "src");
    LookupCons(attrs[1], attrs[2..], "src");
    Asset("script", attrs, None, None)
  }
}

=== FILE: dev_manifest.dfy ===
/** The development manifest (`createDevManifest` in
    lib/manifest/dev-server-manifest.js): per-router manifest lookup gated by
    router mode, input ownership, output paths per bundler target, and the
    ordered asset list of an entry. The JavaScript proxies become explicit
    accessor functions, and the live dev server a `ServerView` parameter. */
module DevManifest {
  import opened Wrappers
  import opened Text
  import opened Seqs
  import opened Paths
  import opened Config
  import opened Assets

  const BrowserTarget := "browser"

  /** The router modes that have a manifest. */
  predicate HasManifest(mode: string) {
    mode == "build" || mode == "handler" || mode == "spa" || mode == "node-handler"
  }

  function ModeMessage(mode: string): string {
    "Router mode " + mode + " doesn't have a manifest"
  }

  function NotFoundMessage(input: string, bundlerName: string): string {
    "Could not find entry " + input + " in any router with bundler " + bundlerName
  }

  /** `manifest[bundlerName]`: the name it was looked up by, the router found and its handler. */
  datatype BundlerManifest = BundlerManifest(bundlerName: string, router: Router, handler: Option<string>)

  /** A resolved entry. The fields other than `outputPath` are what its
      `assets()` closure captured. */
  datatype Entry = Entry(
    input: string,
    absolutePath: string,
    isHandler: bool,
    browser: bool,
    prefix: string,
    styleRoot: string,
    outputPath: string)

  /** The live dev server as `assets()` observes it at the time of a call: its
      plugins, and the style collector applied to a list of traversal roots. */
  datatype ServerView = ServerView(plugins: seq<ServerPlugin>, findStyles: seq<string> -> seq<StyleModule>)

  /** `manifest[bundlerName]`: the first router with that name, provided its mode
      has a manifest. A missing router is a TypeError (its `mode` is read from
      `undefined`). */
  function GetBundlerManifest(config: AppConfig, bundlerName: string): (r: Result<BundlerManifest, Error>)
    ensures r.Success? <==> GetRouter(config, bundlerName).Some? && HasManifest(GetRouter(config, bundlerName).value.mode)
    ensures r.Success? ==> r.value.router == GetRouter(config, bundlerName).value
    ensures r.Success? ==> r.value.router.name == bundlerName && r.value.handler == r.value.router.handler
    ensures r.Success? ==> r.value.bundlerName == bundlerName
    ensures GetRouter(config, bundlerName).None? ==> r.Failure? && r.error.TypeError?
    ensures GetRouter(config, bundlerName).Some? && !HasManifest(GetRouter(config, bundlerName).value.mode) ==>
              r == Failure(InvalidArgument(ModeMessage(GetRouter(config, bundlerName).value.mode)))
  {
    match GetRouter(config, bundlerName)
    case None => Failure(TypeError("Cannot read properties of undefined (reading 'mode')"))
    case Some(router) =>
      if !HasManifest(router.mode) then Failure(InvalidArgument(ModeMessage(router.mode)))
      else Success(BundlerManifest(bundlerName, router, router.handler))
  }

  /** Reading the process-wide manifest: the placeholder refuses every name. */
  function ReadManifest(slot: ManifestSlot, config: AppConfig, bundlerName: string): (r: Result<BundlerManifest, Error>)
    ensures slot == Placeholder ==> r == Failure(NotReady(NotReadyMessage))
    ensures slot == DevManifestInstalled ==> r == GetBundlerManifest(config, bundlerName)
  {
    match slot
    case Placeholder => Failure(PlaceholderGet(bundlerName).error)
    case DevManifestInstalled => GetBundlerManifest(config, bundlerName)
  }

  /** Until a dev server installs its manifest, an application built by
      `createApp` refuses every bundler name. */
  lemma CreatedAppNotReady(ops: PathOps, resolve: RouterResolver, root: string, routers: seq<RouterDecl>,
                           bundlers: seq<Bundler>, config: AppConfig, bundlerName: string)
    ensures ReadManifest(CreateApp(ops, resolve, root, routers, bundlers).manifest, config, bundlerName)
              == Failure(NotReady(NotReadyMessage))
  {
  }

  /** The input is the router's handler: the handler equals the input relative to the root. */
  predicate IsHandlerInput(ops: PathOps, root: string, router: Router, input: string) {
    router.handler == Some(ops.relative(root, input))
  }

  /** The input lies in the router's directory: a truthy `dir` is a plain string
      prefix of the absolute input. */
  predicate IsDirEntry(ops: PathOps, root: string, router: Router, input: string) {
    Truthy(router.dir) && router.dir.value <= ToAbsolute(ops, root, input)
  }

  predicate Owns(ops: PathOps, root: string, router: Router, input: string) {
    IsHandlerInput(ops, root, router, input) || IsDirEntry(ops, root, router, input)
  }

  /** `manifest[bundlerName].inputs[input]`. An input the router does not own is
      not found; a router without a bundler fails reading its target. A browser
      entry's output is the `@fs` path under the router prefix and its styles are
      traversed from the absolute path; any other target outputs the absolute path
      and traverses from the input as given. */
  function GetInput(ops: PathOps, config: AppConfig, m: BundlerManifest, input: string): (r: Result<Entry, Error>)
    ensures !Owns(ops, config.root, m.router, input) ==> r == Failure(NotFound(NotFoundMessage(input, m.bundlerName)))
    ensures Owns(ops, config.root, m.router, input) && m.router.bundler.None? ==> r.Failure? && r.error.TypeError?
    ensures r.Success? <==> Owns(ops, config.root, m.router, input) && m.router.bundler.Some?
    ensures r.Success? ==>
              && r.value.input == input
              && r.value.absolutePath == ToAbsolute(ops, config.root, input)
              && r.value.isHandler == IsHandlerInput(ops, config.root, m.router, input)
              && r.value.prefix == m.router.prefix
              && r.value.browser == (m.router.bundler.value.target == Some(BrowserTarget))
    ensures r.Success? && r.value.browser ==>
              r.value.outputPath == ops.join([m.router.prefix, "@fs", r.value.absolutePath])
              && r.value.styleRoot == r.value.absolutePath
    ensures r.Success? && !r.value.browser ==>
              r.value.outputPath == r.value.absolutePath && r.value.styleRoot == input
  {
    var router := m.router;
    var absolutePath := ToAbsolute(ops, config.root, input);
    var isHandler := IsHandlerInput(ops, config.root, router, input);
    if !Owns(ops, config.root, router, input) then Failure(NotFound(NotFoundMessage(input, m.bundlerName)))
    else if router.bundler.None? then Failure(TypeError("Cannot read properties of undefined (reading 'target')"))
    else if router.bundler.value.target == Some(BrowserTarget) then
      Success(Entry(input, absolutePath, isHandler, true, router.prefix, absolutePath,
                    ops.join([router.prefix, "@fs", absolutePath])))
    else
      Success(Entry(input, absolutePath, isHandler, false, router.prefix, input, absolutePath))
  }

  /** An absolute input is used as it is: a non-browser entry outputs exactly the input. */
  lemma AbsoluteInputKept(ops: PathOps, config: AppConfig, m: BundlerManifest, input: string)
    requires ops.isAbsolute(input)
    requires GetInput(ops, config, m, input).Success?
    ensures GetInput(ops, config, m, input).value.absolutePath == input
    ensures !GetInput(ops, config, m, input).value.browser ==> GetInput(ops, config, m, input).value.outputPath == input
  {
  }

  /** A relative input is joined onto the application root. */
  lemma RelativeInputJoined(ops: PathOps, config: AppConfig, m: BundlerManifest, input: string)
    requires !ops.isAbsolute(input)
    requires GetInput(ops, config, m, input).Success?
    ensures GetInput(ops, config, m, input).value.absolutePath == ops.join([config.root, input])
  {
  }

  function Present(xs: seq<Asset>): (r: seq<Option<Asset>>)
    ensures |r| == |xs| && forall i :: 0 <= i < |xs| ==> r[i] == Some(xs[i])
  {
    seq(|xs|, i requires 0 <= i < |xs| => Some(xs[i]))
  }

  predicate IsPresent(slot: Option<Asset>) {
    slot.Some?
  }

  /** The stylesheet modules the collector reports for the entry's traversal root. */
  function Collected(e: Entry, server: ServerView): seq<StyleModule> {
    server.findStyles([e.styleRoot])
  }

  /** The asset slots before the browser branch drops the empty ones. */
  function AssetSlots(ops: PathOps, e: Entry, server: ServerView): seq<Option<Asset>> {
    var client := if e.isHandler then Some(ViteClientScript(ops, e.prefix)) else None;
    Present(PluginAssets(server.plugins)) + Present(StyleAssets(Collected(e, server))) + [client]
  }

  /** Dropping the empty slot leaves the present ones, and the client script only for a handler. */
  lemma {:induction false} FilterSlots(xs: seq<Asset>, client: Option<Asset>)
    ensures Filter(Present(xs) + [client], IsPresent) == Present(xs) + (if client.Some? then [client] else [])
  {
    FilterConcat(Present(xs), [client], IsPresent);
    FilterAllPass(Present(xs), IsPresent);
    assert Filter([client], IsPresent) == (if client.Some? then [client] else []) by {
      assert [client][1..] == [];
    }
  }

  /** `entry.assets()`: the asset slots, with the empty slot dropped for a browser entry. */
  function EntryAssets(ops: PathOps, e: Entry, server: ServerView): (r: seq<Option<Asset>>)
    ensures e.browser ==> forall i :: 0 <= i < |r| ==> r[i].Some?
  {
    var slots := AssetSlots(ops, e, server);
    if e.browser then Filter(slots, IsPresent) else slots
  }

  /** The trailing slots: the client script for a handler; otherwise an empty slot,
      which only a browser entry drops. */
  function Tail(ops: PathOps, e: Entry): seq<Option<Asset>> {
    if e.isHandler then [Some(ViteClientScript(ops, e.prefix))] else if e.browser then [] else [None]
  }

  /** The asset list is the plugin assets, then the stylesheets, then the tail. */
  lemma EntryAssetsLayout(ops: PathOps, e: Entry, server: ServerView)
    ensures EntryAssets(ops, e, server) ==
              Present(PluginAssets(server.plugins)) + Present(StyleAssets(Collected(e, server))) + Tail(ops, e)
  {
    var plugins := PluginAssets(server.plugins);
    var styles := StyleAssets(Collected(e, server));
    var client := if e.isHandler then Some(ViteClientScript(ops, e.prefix)) else None;
    if e.browser {
      assert Present(plugins) + Present(styles) == Present(plugins + styles);
      FilterSlots(plugins + styles, client);
    }
  }

  /** Positions of a list made of plugin assets, stylesheets and a tail. */
  lemma LayoutIndices(r: seq<Option<Asset>>, plugins: seq<Asset>, styles: seq<Asset>, tail: seq<Option<Asset>>)
    requires r == Present(plugins) + Present(styles) + tail
    ensures |r| == |plugins| + |styles| + |tail|
    ensures forall i :: 0 <= i < |plugins| ==> r[i] == Some(plugins[i])
    ensures forall k :: 0 <= k < |styles| ==> r[|plugins| + k] == Some(styles[k])
    ensures forall k :: 0 <= k < |tail| ==> r[|plugins| + |styles| + k] == tail[k]
  {
  }

  /** `entry.assets()` starts with the plugin-injected tags, in order. */
  lemma {:induction false} EntryAssetsPluginsFirst(ops: PathOps, e: Entry, server: ServerView)
    ensures |PluginAssets(server.plugins)| <= |EntryAssets(ops, e, server)|
    ensures forall i :: 0 <= i < |PluginAssets(server.plugins)| ==>
              EntryAssets(ops, e, server)[i] == Some(PluginAssets(server.plugins)[i])
  {
    EntryAssetsLayout(ops, e, server);
    LayoutIndices(EntryAssets(ops, e, server), PluginAssets(server.plugins), StyleAssets(Collected(e, server)), Tail(ops, e));
  }

  /** The plugin assets are followed by one stylesheet per collected module, in collector order. */
  lemma {:induction false} EntryAssetsStylesNext(ops: PathOps, e: Entry, server: ServerView)
    ensures |PluginAssets(server.plugins)| + |Collected(e, server)| <= |EntryAssets(ops, e, server)|
    ensures forall k :: 0 <= k < |Collected(e, server)| ==>
              EntryAssets(ops, e, server)[|PluginAssets(server.plugins)| + k] == Some(StyleAsset(Collected(e, server)[k]))
  {
    EntryAssetsLayout(ops, e, server);
    LayoutIndices(EntryAssets(ops, e, server), PluginAssets(server.plugins), StyleAssets(Collected(e, server)), Tail(ops, e));
  }

  /** After the stylesheets, a browser entry has one more asset for a handler and
      none otherwise, while any other entry always has one more slot. The last
      slot is the Vite client script for a handler, and empty for a non-browser
      entry that is not the handler. */
  lemma {:induction false} EntryAssetsTail(ops: PathOps, e: Entry, server: ServerView)
    ensures e.browser ==>
              |EntryAssets(ops, e, server)| == |PluginAssets(server.plugins)| + |Collected(e, server)| + (if e.isHandler then 1 else 0)
    ensures !e.browser ==>
              |EntryAssets(ops, e, server)| == |PluginAssets(server.plugins)| + |Collected(e, server)| + 1
    ensures !e.browser ==> (EntryAssets(ops, e, server)[|EntryAssets(ops, e, server)| - 1].None? <==> !e.isHandler)
    ensures e.isHandler ==>
              EntryAssets(ops, e, server)[|EntryAssets(ops, e, server)| - 1] == Some(ViteClientScript(ops, e.prefix))
  {
    EntryAssetsLayout(ops, e, server);
    LayoutIndices(EntryAssets(ops, e, server), PluginAssets(server.plugins), StyleAssets(Collected(e, server)), Tail(ops, e));
  }

  /** The slot holds the Vite client bootstrap script. */
  predicate IsBootstrap(slot: Option<Asset>) {
    slot.Some? && slot.value.tag == "script" && Lookup(slot.value.attrs, KeyAttr) == Some(ViteClientKey)
  }

  /** No plugin asset and no stylesheet is a bootstrap script. */
  lemma NoBootstrapBeforeTail(r: seq<Option<Asset>>, plugins: seq<Asset>, modules: seq<StyleModule>, tail: seq<Option<Asset>>)
    requires forall i :: 0 <= i < |plugins| ==> Lookup(plugins[i].attrs, KeyAttr) != Some(ViteClientKey)
    requires r == Present(plugins) + Present(StyleAssets(modules)) + tail
    ensures forall i :: 0 <= i < |plugins| + |modules| ==> !IsBootstrap(r[i])
  {
    var styles := StyleAssets(modules);
    LayoutIndices(r, plugins, styles, tail);
    forall i | |plugins| <= i < |plugins| + |modules|
      ensures !IsBootstrap(r[i])
    {
      var k := i - |plugins|;
      assert r[|plugins| + k] == Some(StyleAsset(modules[k]));
    }
  }

  /** A handler entry has exactly one bootstrap script, in the last slot; any
      other entry has none. */
  lemma {:induction false} BootstrapOnlyForHandler(ops: PathOps, e: Entry, server: ServerView)
    ensures forall i :: 0 <= i < |EntryAssets(ops, e, server)| && IsBootstrap(EntryAssets(ops, e, server)[i]) ==>
              e.isHandler && i == |EntryAssets(ops, e, server)| - 1
    ensures e.isHandler ==> IsBootstrap(EntryAssets(ops, e, server)[|EntryAssets(ops, e, server)| - 1])
  {
    var r := EntryAssets(ops, e, server);
    var plugins := PluginAssets(server.plugins);
    var modules := Collected(e, server);
    var tail := Tail(ops, e);
    PluginAssetKeysDistinct(server.plugins);
    EntryAssetsLayout(ops, e, server);
    NoBootstrapBeforeTail(r, plugins, modules, tail);
    LayoutIndices(r, plugins, StyleAssets(modules), tail);
    if e.isHandler {
      assert r[|r| - 1] == Some(ViteClientScript(ops, e.prefix));
    } else if !e.browser {
      assert r[|r| - 1] == None;
    }
  }

  /** An input that is owned only through the router's directory, not as its
      handler, never gets the bootstrap script, whatever the target. */
  lemma SiblingHasNoBootstrap(ops: PathOps, config: AppConfig, m: BundlerManifest, input: string, server: ServerView)
    requires GetInput(ops, config, m, input).Success?
    requires !IsHandlerInput(ops, config.root, m.router, input)
    ensures forall i :: 0 <= i < |EntryAssets(ops, GetInput(ops, config, m, input).value, server)| ==>
              !IsBootstrap(EntryAssets(ops, GetInput(ops, config, m, input).value, server)[i])
  {
    BootstrapOnlyForHandler(ops, GetInput(ops, config, m, input).value, server);
  }
}

=== FILE: dev_server.dfy ===
/** The development orchestration decisions of lib/dev-server.js: entry lists,
    the per-target plugin bundle and plugin order, live-reload ports, request
    dispatch by router mode, option defaults, the `dev` gate and the split of
    routers into public assets and dev handlers. Creating Vite and Nitro servers
    is not modelled: each creation is a step of the returned run, and whether it
    rejects is a parameter. */
module DevServer {
  import opened Wrappers
  import opened Seqs
  import opened Config
  import DevManifest

  const DefaultPort := 3000
  const DefaultWsPort := 16000
  const ServerEntry := "./app/server.tsx"
  const StaticMode := "static"

  /** `getEntries`: the handler first, then every file-router route's file path. */
  function GetEntries(router: Router): (r: seq<Option<string>>)
    ensures |r| >= 1 && r[0] == router.handler
    ensures router.fileRouter.None? ==> |r| == 1
    ensures router.fileRouter.Some? ==> |r| == 1 + |router.fileRouter.value.routes|
    ensures router.fileRouter.Some? ==> forall i :: 0 <= i < |router.fileRouter.value.routes| ==>
              r[i + 1] == Some(router.fileRouter.value.routes[i].filePath)
  {
    var routes := match router.fileRouter
      case None => []
      case Some(fr) => seq(|fr.routes|, i requires 0 <= i < |fr.routes| => Some(fr.routes[i].filePath));
    [router.handler] + routes
  }

  /** The Vite plugins the orchestrator names. */
  datatype Plugin = DevEntries | ManifestPlugin | CssPlugin | Declared(name: string)

  /** One slot of the `plugins` array: a plugin, a nested array, or `undefined`. */
  datatype PluginItem = Single(plugin: Plugin) | Group(plugins: seq<Plugin>) | Undefined

  /** `devPlugin[target]?.()`: the CSS plugin for "browser", nothing for "node",
      and `undefined` for any other or a missing target. */
  function TargetBundle(target: Option<string>): (r: PluginItem)
    ensures target == Some("browser") <==> r == Group([CssPlugin])
    ensures target == Some("node") <==> r == Group([])
    ensures target != Some("browser") && target != Some("node") <==> r == Undefined
  {
    if target == Some("browser") then Group([CssPlugin])
    else if target == Some("node") then Group([])
    else Undefined
  }

  /** The dev server configuration the orchestrator passes for one router. */
  datatype ViteConfig = ViteConfig(
    base: string,
    appType: string,
    plugins: seq<PluginItem>,
    middlewareMode: bool,
    hmrPort: int,
    router: Router)

  /** The plugin array: dev entries, the manifest plugin, the target bundle, then the
      bundler's own plugins. A router without a bundler fails reading its target. */
  function PluginsFor(router: Router): (r: Result<seq<PluginItem>, Error>)
    ensures r.Success? <==> router.bundler.Some?
    ensures r.Success? ==>
              var own := router.bundler.value.plugins.GetOr([]);
              && |r.value| == 3 + |own|
              && r.value[0] == Single(DevEntries)
              && r.value[1] == Single(ManifestPlugin)
              && r.value[2] == TargetBundle(router.bundler.value.target)
              && forall i :: 0 <= i < |own| ==> r.value[3 + i] == Single(Declared(own[i]))
  {
    match router.bundler
    case None => Failure(TypeError("Cannot read properties of undefined (reading 'target')"))
    case Some(b) =>
      var own := b.plugins.GetOr([]);
      Success([Single(DevEntries), Single(ManifestPlugin), TargetBundle(b.target)]
              + seq(|own|, i requires 0 <= i < |own| => Single(Declared(own[i]))))
  }

  /** The live-reload port of a router: the base port shifted by the router's index. */
  function HmrPort(wsPort: int, router: Router): (port: int)
    ensures port - wsPort == router.index
  {
    wsPort + router.index
  }

  /** The dev server configuration of one router. */
  function ViteConfigFor(router: Router, wsPort: int): (r: Result<ViteConfig, Error>)
    ensures r.Success? <==> router.bundler.Some?
    ensures r.Success? ==>
              && r.value.base == router.prefix
              && r.value.middlewareMode
              && r.value.hmrPort == HmrPort(wsPort, router)
              && Success(r.value.plugins) == PluginsFor(router)
              && r.value.router == router
  {
    match PluginsFor(router)
    case Failure(err) => Failure(err)
    case Success(plugins) => Success(ViteConfig(router.prefix, "custom", plugins, true, HmrPort(wsPort, router), router))
  }

  /** What a dev router does with a request. */
  datatype Dispatch = LoadServerEntry(path: string) | ForwardToMiddlewares

  /** A `node-handler` router loads the server entry afresh on every request;
      every other mode hands the request to the dev server's middlewares. */
  function DispatchFor(mode: string): (d: Dispatch)
    ensures mode == "node-handler" <==> d == LoadServerEntry(ServerEntry)
    ensures mode != "node-handler" <==> d == ForwardToMiddlewares
  {
    if mode == "node-handler" then LoadServerEntry(ServerEntry) else ForwardToMiddlewares
  }

  /** A dev handler as Nitro receives it: the route prefix and the handler. */
  datatype DevHandler = DevHandler(route: string, dispatch: Dispatch, vite: ViteConfig)

  /** A static directory served as it is. */
  datatype PublicAsset = PublicAsset(dir: Option<string>, baseURL: string, passthrough: bool)

  /** `createDevRouterHandler`. `failing` holds the indices of routers whose dev
      server creation rejects. */
  function DevHandlerFor(router: Router, wsPort: int, failing: set<int>): (r: Result<DevHandler, Error>)
    ensures r.Success? <==> router.bundler.Some? && router.index !in failing
    ensures router.bundler.None? ==> r.Failure? && r.error.TypeError?
    ensures router.bundler.Some? && router.index in failing ==> r.Failure? && r.error.StartupFailure?
    ensures r.Success? ==>
              && r.value.route == router.prefix
              && r.value.dispatch == DispatchFor(router.mode)
              && Success(r.value.vite) == ViteConfigFor(router, wsPort)
  {
    match ViteConfigFor(router, wsPort)
    case Failure(err) => Failure(err)
    case Success(vite) =>
      if router.index in failing then Failure(StartupFailure("dev server for router " + router.name + " failed to start"))
      else Success(DevHandler(router.prefix, DispatchFor(router.mode), vite))
  }

  /** `Promise.all` over the routers' handlers: all of them, in router order, or
      the first failure in router order. */
  function DevHandlersFor(routers: seq<Router>, wsPort: int, failing: set<int>): (r: Result<seq<DevHandler>, Error>)
    ensures r.Success? <==> forall i :: 0 <= i < |routers| ==> DevHandlerFor(routers[i], wsPort, failing).Success?
    ensures r.Success? ==> |r.value| == |routers|
    ensures r.Success? ==> forall i :: 0 <= i < |routers| ==> Success(r.value[i]) == DevHandlerFor(routers[i], wsPort, failing)
    ensures r.Failure? ==>
              exists i :: 0 <= i < |routers| && DevHandlerFor(routers[i], wsPort, failing) == Failure(r.error)
                && forall j :: 0 <= j < i ==> DevHandlerFor(routers[j], wsPort, failing).Success?
  {
    AllOrFirstFailure(routers, (router: Router) => DevHandlerFor(router, wsPort, failing))
  }

  predicate IsStatic(router: Router) {
    router.mode == StaticMode
  }

  predicate IsDynamic(router: Router) {
    router.mode != StaticMode
  }

  /** The public assets: every static router, in order, served as a passthrough directory. */
  function PublicAssets(routers: seq<Router>): (r: seq<PublicAsset>)
    ensures |r| == |Filter(routers, IsStatic)|
    ensures forall i :: 0 <= i < |r| ==>
              var router := Filter(routers, IsStatic)[i];
              r[i] == PublicAsset(router.dir, router.prefix, true)
  {
    var statics := Filter(routers, IsStatic);
    seq(|statics|, i requires 0 <= i < |statics| => PublicAsset(statics[i].dir, statics[i].prefix, true))
  }

  /** Every router is either a public asset directory or a dev router, never both,
      and the two lists together hold each router once. */
  lemma {:induction false} RoutersPartitioned(routers: seq<Router>)
    ensures multiset(Filter(routers, IsStatic)) + multiset(Filter(routers, IsDynamic)) == multiset(routers)
    ensures |PublicAssets(routers)| + |Filter(routers, IsDynamic)| == |routers|
    ensures forall router :: router in routers ==> (router in Filter(routers, IsStatic) <==> router !in Filter(routers, IsDynamic))
  {
    FilterPartition(routers, IsStatic, IsDynamic);
    forall router | router in routers
      ensures router in Filter(routers, IsStatic) <==> router !in Filter(routers, IsDynamic)
    {
      FilterMembership(routers, IsStatic, router);
      FilterMembership(routers, IsDynamic, router);
    }
  }

  /** Options as the caller passes them; `None` is an omitted field. */
  datatype WsOptions = WsOptions(port: Option<int>)
  datatype ServeOptions = ServeOptions(port: Option<int>, dev: Option<bool>, ws: Option<WsOptions>)

  datatype ServeConfig = ServeConfig(port: int, dev: bool, wsPort: int)

  /** Destructuring with defaults: port 3000, dev off, live-reload base port 16000. */
  function ServeConfigOf(options: ServeOptions): (c: ServeConfig)
    ensures c.port == (if options.port.Some? then options.port.value else DefaultPort)
    ensures c.dev == (options.dev == Some(true))
    ensures c.wsPort == (if options.ws.Some? && options.ws.value.port.Some? then options.ws.value.port.value else DefaultWsPort)
  {
    var ws := options.ws.GetOr(WsOptions(None));
    ServeConfig(options.port.GetOr(DefaultPort), options.dev.GetOr(false), ws.port.GetOr(DefaultWsPort))
  }

  datatype NitroConfig = NitroConfig(publicAssets: seq<PublicAsset>, devHandlers: seq<DevHandler>)

  /** The observable steps of `createDevServer`, in the order they happen. */
  datatype Step = InstallManifest | LaunchVite(vite: ViteConfig) | CreateNitro(nitro: NitroConfig) | Listen(port: int)

  datatype Outcome = Skipped | Serving(nitro: NitroConfig) | Failed(error: Error)

  datatype DevRun = DevRun(serve: ServeConfig, manifest: ManifestSlot, steps: seq<Step>, outcome: Outcome)

  predicate HasBundler(router: Router) {
    router.bundler.Some?
  }

  /** The dev servers actually created, in router order; a router without a
      bundler fails before its server is created. */
  function Launches(routers: seq<Router>, wsPort: int): (r: seq<Step>)
    ensures |r| <= |routers|
    ensures forall i :: 0 <= i < |r| ==> r[i].LaunchVite?
  {
    if |routers| == 0 then []
    else
      (match ViteConfigFor(routers[0], wsPort)
       case Success(cfg) => [LaunchVite(cfg)]
       case Failure(_) => [])
      + Launches(routers[1..], wsPort)
  }

  /** One dev server per router that has a bundler, configured for that router,
      in router order. */
  lemma {:induction false} LaunchesPerRouter(routers: seq<Router>, wsPort: int)
    ensures |Launches(routers, wsPort)| == |Filter(routers, HasBundler)|
    ensures forall i :: 0 <= i < |Launches(routers, wsPort)| ==>
              Launches(routers, wsPort)[i] == LaunchVite(ViteConfigFor(Filter(routers, HasBundler)[i], wsPort).value)
  {
    if |routers| > 0 {
      LaunchesPerRouter(routers[1..], wsPort);
    }
  }

  /** The `dev` branch of `createDevServer`: the dev manifest replaces the
      placeholder, a dev server is created for every dynamic router that has a
      bundler, and only when every dev handler starts is Nitro created and told
      to listen on the port. */
  function StartDev(app: AppConfig, serve: ServeConfig, failing: set<int>): (run: DevRun)
    ensures run.serve == serve && run.manifest == DevManifestInstalled
    ensures !run.outcome.Skipped?
    ensures run.outcome.Serving? <==> DevHandlersFor(Filter(app.routers, IsDynamic), serve.wsPort, failing).Success?
    ensures var launched := Launches(Filter(app.routers, IsDynamic), serve.wsPort);
              && |run.steps| == 1 + |launched| + (if run.outcome.Serving? then 2 else 0)
              && run.steps[0] == InstallManifest
              && run.steps[1..1 + |launched|] == launched
    ensures run.outcome.Serving? ==>
              && run.steps[|run.steps| - 2] == CreateNitro(run.outcome.nitro)
              && run.steps[|run.steps| - 1] == Listen(serve.port)
              && run.outcome.nitro.publicAssets == PublicAssets(app.routers)
              && Success(run.outcome.nitro.devHandlers) == DevHandlersFor(Filter(app.routers, IsDynamic), serve.wsPort, failing)
    ensures run.outcome.Failed? ==>
              DevHandlersFor(Filter(app.routers, IsDynamic), serve.wsPort, failing) == Failure(run.outcome.error)
  {
    var dynamic := Filter(app.routers, IsDynamic);
    var launched := Launches(dynamic, serve.wsPort);
    var started := [InstallManifest] + launched;
    assert started[1..1 + |launched|] == launched;
    match DevHandlersFor(dynamic, serve.wsPort, failing)
    case Failure(err) => DevRun(serve, DevManifestInstalled, started, Failed(err))
    case Success(handlers) =>
      var nitro := NitroConfig(PublicAssets(app.routers), handlers);
      var steps := started + [CreateNitro(nitro), Listen(serve.port)];
      assert steps[1..1 + |launched|] == started[1..1 + |launched|];
      DevRun(serve, DevManifestInstalled, steps, Serving(nitro))
  }

  /** `createDevServer`. Without `dev` nothing happens; with it the run is
      `StartDev`'s. */
  function CreateDevServer(app: AppConfig, slot: ManifestSlot, options: ServeOptions, failing: set<int>): (run: DevRun)
    ensures run.serve == ServeConfigOf(options)
    ensures !run.serve.dev ==> run.steps == [] && run.manifest == slot && run.outcome == Skipped
    ensures run.serve.dev ==> run == StartDev(app, run.serve, failing)
  {
    var serve := ServeConfigOf(options);
    if !serve.dev then DevRun(serve, slot, [], Skipped) else StartDev(app, serve, failing)
  }

  /** A run that fails never creates Nitro and never listens. */
  lemma FailedRunNeverListens(app: AppConfig, slot: ManifestSlot, options: ServeOptions, failing: set<int>)
    ensures var run := CreateDevServer(app, slot, options, failing);
      run.outcome.Failed? ==>
        forall i :: 0 <= i < |run.steps| ==> !run.steps[i].CreateNitro? && !run.steps[i].Listen?
  {
    var run := CreateDevServer(app, slot, options, failing);
    if run.outcome.Failed? {
      var launched := Launches(Filter(app.routers, IsDynamic), run.serve.wsPort);
      forall i | 0 <= i < |run.steps|
        ensures !run.steps[i].CreateNitro? && !run.steps[i].Listen?
      {
        if i > 0 {
          assert run.steps[i] == run.steps[1..1 + |launched|][i - 1];
        }
      }
    }
  }

  /** With `dev` set, every dynamic router that has a bundler gets its dev server
      created, whether or not the run ends up serving. */
  lemma DynamicRouterLaunched(app: AppConfig, slot: ManifestSlot, options: ServeOptions, failing: set<int>, router: Router)
    requires router in app.routers && IsDynamic(router) && router.bundler.Some?
    ensures var run := CreateDevServer(app, slot, options, failing);
      run.serve.dev ==>
        exists i :: 0 < i < |run.steps| && run.steps[i] == LaunchVite(ViteConfigFor(router, run.serve.wsPort).value)
  {
    var run := CreateDevServer(app, slot, options, failing);
    if run.serve.dev {
      var launched := Launches(Filter(app.routers, IsDynamic), run.serve.wsPort);
      var k := RouterLaunchIndex(app.routers, run.serve.wsPort, router);
      assert run.steps[1 + k] == run.steps[1..1 + |launched|][k];
    }
  }

  /** Where a dynamic router with a bundler sits among the launches. */
  lemma RouterLaunchIndex(routers: seq<Router>, wsPort: int, router: Router) returns (k: nat)
    requires router in routers && IsDynamic(router) && router.bundler.Some?
    ensures k < |Launches(Filter(routers, IsDynamic), wsPort)|
    ensures Launches(Filter(routers, IsDynamic), wsPort)[k] == LaunchVite(ViteConfigFor(router, wsPort).value)
  {
    var dynamic := Filter(routers, IsDynamic);
    LaunchesPerRouter(dynamic, wsPort);
    FilterMembership(routers, IsDynamic, router);
    FilterMembership(dynamic, HasBundler, router);
    var started := Filter(dynamic, HasBundler);
    k :| 0 <= k < |started| && started[k] == router;
  }

  /** The manifest a run leaves behind: with `dev` set every name reads the dev
      manifest, without it the slot reads as it did before. */
  lemma DevRunManifest(app: AppConfig, slot: ManifestSlot, options: ServeOptions, failing: set<int>, bundlerName: string)
    ensures var run := CreateDevServer(app, slot, options, failing);
      && (run.serve.dev ==>
            DevManifest.ReadManifest(run.manifest, app, bundlerName) == DevManifest.GetBundlerManifest(app, bundlerName))
      && (!run.serve.dev ==>
            DevManifest.ReadManifest(run.manifest, app, bundlerName) == DevManifest.ReadManifest(slot, app, bundlerName))
  {
  }

  /** Routers with distinct indices get distinct live-reload ports. */
  lemma {:induction false} HmrPortsDistinct(routers: seq<Router>, wsPort: int, failing: set<int>)
    requires IndicesDistinct(routers)
    requires DevHandlersFor(Filter(routers, IsDynamic), wsPort, failing).Success?
    ensures var hs := DevHandlersFor(Filter(routers, IsDynamic), wsPort, failing).value;
      forall i, j :: 0 <= i < j < |hs| ==> hs[i].vite.hmrPort != hs[j].vite.hmrPort
  {
    var dynamic := Filter(routers, IsDynamic);
    var hs := DevHandlersFor(dynamic, wsPort, failing).value;
    FilterKeepsKeysDistinct(routers, IsDynamic, (r: Router) => r.index);
    forall i, j | 0 <= i < j < |hs|
      ensures hs[i].vite.hmrPort != hs[j].vite.hmrPort
    {
      assert hs[i].vite.hmrPort == wsPort + dynamic[i].index;
      assert hs[j].vite.hmrPort == wsPort + dynamic[j].index;
    }
  }

  /** Every dev server a run creates gets its own live-reload port, whether or
      not the run ends up serving: the servers of a failed run still exist. */
  lemma {:induction false} LaunchedPortsDistinct(routers: seq<Router>, wsPort: int)
    requires IndicesDistinct(routers)
    ensures var launched := Launches(Filter(routers, IsDynamic), wsPort);
      forall i, j :: 0 <= i < j < |launched| ==> launched[i].vite.hmrPort != launched[j].vite.hmrPort
  {
    var dynamic := Filter(routers, IsDynamic);
    var started := Filter(dynamic, HasBundler);
    var launched := Launches(dynamic, wsPort);
    FilterKeepsKeysDistinct(routers, IsDynamic, (r: Router) => r.index);
    FilterKeepsKeysDistinct(dynamic, HasBundler, (r: Router) => r.index);
    LaunchesPerRouter(dynamic, wsPort);
    forall i, j | 0 <= i < j < |launched|
      ensures launched[i].vite.hmrPort != launched[j].vite.hmrPort
    {
      assert launched[i].vite.hmrPort == wsPort + started[i].index;
      assert launched[j].vite.hmrPort == wsPort + started[j].index;
    }
  }

  /** The dev servers created for an application built by `createApp` listen for
      live reload on pairwise distinct ports, in a failed run as in a serving one. */
  lemma CreatedAppLaunchedPortsDistinct(ops: Paths.PathOps, resolve: RouterResolver, root: string,
                                        routers: seq<RouterDecl>, bundlers: seq<Bundler>, wsPort: int)
    ensures var app := CreateApp(ops, resolve, root, routers, bundlers);
      var launched := Launches(Filter(app.config.routers, IsDynamic), wsPort);
      forall i, j :: 0 <= i < j < |launched| ==> launched[i].vite.hmrPort != launched[j].vite.hmrPort
  {
    var app := CreateApp(ops, resolve, root, routers, bundlers);
    CreatedIndicesDistinct(ops, resolve, root, routers, bundlers);
    LaunchedPortsDistinct(app.config.routers, wsPort);
  }

  /** Every dev server of an application built by `createApp` listens for live
      reload on its own port. */
  lemma CreatedAppHmrPortsDistinct(ops: Paths.PathOps, resolve: RouterResolver, root: string,
                                   routers: seq<RouterDecl>, bundlers: seq<Bundler>,
                                   options: ServeOptions, failing: set<int>)
    ensures var app := CreateApp(ops, resolve, root, routers, bundlers);
      var run := CreateDevServer(app.config, app.manifest, options, failing);
      run.outcome.Serving? ==>
        forall i, j :: 0 <= i < j < |run.outcome.nitro.devHandlers| ==>
          run.outcome.nitro.devHandlers[i].vite.hmrPort != run.outcome.nitro.devHandlers[j].vite.hmrPort
  {
    var app := CreateApp(ops, resolve, root, routers, bundlers);
    var run := CreateDevServer(app.config, app.manifest, options, failing);
    if run.outcome.Serving? {
      CreatedIndicesDistinct(ops, resolve, root, routers, bundlers);
      HmrPortsDistinct(app.config.routers, run.serve.wsPort, failing);
    }
  }
}

=== FILE: paths.dfy ===
/** The path library the source imports (`isAbsolute`, `join`, `relative`).
    Their internals are not part of this model: every operation of the model
    takes them as a parameter and holds for whatever they compute. */
module Paths {

  /** The three path operations, uninterpreted. `join` takes its segments as a sequence. */
  datatype PathOps = PathOps(
    isAbsolute: string -> bool,
    join: seq<string> -> string,
    relative: (string, string) -> string)

  /** An input path made absolute against `root`: absolute inputs are kept as they are. */
  function ToAbsolute(ops: PathOps, root: string, input: string): (path: string)
    ensures ops.isAbsolute(input) ==> path == input
    ensures !ops.isAbsolute(input) ==> path == ops.join([root, input])
  {
    if ops.isAbsolute(input) then input else ops.join([root, input])
  }
}

=== FILE: seqs.dfy ===
/** The array methods the source relies on (`find`, `findIndex`, `filter`),
    as functions over sequences, with the facts about them the model uses. */
module Seqs {
  import opened Wrappers

  /** Position of the first element satisfying `p` (`Array.prototype.findIndex`). */
  function FirstIndex<T>(s: seq<T>, p: T -> bool): (r: Option<nat>)
    ensures r.Some? ==> r.value < |s| && p(s[r.value])
    ensures r.Some? ==> forall j :: 0 <= j < r.value ==> !p(s[j])
    ensures r.None? ==> forall j :: 0 <= j < |s| ==> !p(s[j])
  {
    if |s| == 0 then None
    else if p(s[0]) then Some(0)
    else match FirstIndex(s[1..], p)
      case None => None
      case Some(k) => Some(k + 1)
  }

  /** The first element satisfying `p`, or absent (`Array.prototype.find`). */
  function Find<T>(s: seq<T>, p: T -> bool): (r: Option<T>)
    ensures r.Some? <==> exists i :: 0 <= i < |s| && p(s[i])
    ensures r.Some? ==> p(r.value)
    ensures r.Some? ==> exists i :: 0 <= i < |s| && s[i] == r.value && forall j :: 0 <= j < i ==> !p(s[j])
  {
    match FirstIndex(s, p)
    case None => None
    case Some(i) => Some(s[i])
  }

  /** `Promise.all` over `f` applied to every element, settled in element order:
      all results in order when every call succeeds, otherwise the error of the
      first call that fails. */
  function AllOrFirstFailure<T, U, E>(s: seq<T>, f: T -> Result<U, E>): (r: Result<seq<U>, E>)
    ensures r.Success? <==> forall i :: 0 <= i < |s| ==> f(s[i]).Success?
    ensures r.Success? ==> |r.value| == |s| && forall i :: 0 <= i < |s| ==> f(s[i]) == Success(r.value[i])
    ensures r.Failure? ==>
              exists i :: 0 <= i < |s| && f(s[i]) == Failure(r.error) && forall j :: 0 <= j < i ==> f(s[j]).Success?
  {
    if |s| == 0 then Success([])
    else
      match f(s[0])
      case Failure(err) => Failure(err)
      case Success(x) =>
        match AllOrFirstFailure(s[1..], f)
        case Failure(err) =>
          assert exists i :: 0 <= i < |s| && f(s[i]) == Failure(err) && forall j :: 0 <= j < i ==> f(s[j]).Success? by {
            var i :| 0 <= i < |s| - 1 && f(s[1..][i]) == Failure(err) && forall j :: 0 <= j < i ==> f(s[1..][j]).Success?;
            assert forall j :: 1 <= j < i + 1 ==> s[j] == s[1..][j - 1];
            assert f(s[i + 1]) == Failure(err);
          }
          Failure(err)
        case Success(xs) => Success([x] + xs)
  }

  /** The elements satisfying `p`, in their original order (`Array.prototype.filter`). */
  function Filter<T>(s: seq<T>, p: T -> bool): (r: seq<T>)
    ensures |r| <= |s|
    ensures forall i :: 0 <= i < |r| ==> p(r[i])
  {
    if |s| == 0 then [] else (if p(s[0]) then [s[0]] else []) + Filter(s[1..], p)
  }

  /** Filtering a concatenation filters each part and keeps them in order. */
  lemma {:induction false} FilterConcat<T>(a: seq<T>, b: seq<T>, p: T -> bool)
    ensures Filter(a + b, p) == Filter(a, p) + Filter(b, p)
    decreases |a|
  {
    if |a| == 0 {
      assert a + b == b;
    } else {
      assert (a + b)[1..] == a[1..] + b;
      FilterConcat(a[1..], b, p);
    }
  }

  /** A filter that every element passes changes nothing. */
  lemma {:induction false} FilterAllPass<T>(s: seq<T>, p: T -> bool)
    requires forall i :: 0 <= i < |s| ==> p(s[i])
    ensures Filter(s, p) == s
    decreases |s|
  {
    if |s| > 0 {
      FilterAllPass(s[1..], p);
    }
  }

  /** An element is kept exactly when it belongs to the input and passes the test. */
  lemma {:induction false} FilterMembership<T>(s: seq<T>, p: T -> bool, x: T)
    ensures x in Filter(s, p) <==> x in s && p(x)
    decreases |s|
  {
    if |s| > 0 {
      FilterMembership(s[1..], p, x);
      assert x in s <==> x == s[0] || x in s[1..];
    }
  }

  /** Two complementary filters split the input: every element goes to exactly
      one side, so the two sides together are a permutation of the input. */
  lemma {:induction false} FilterPartition<T>(s: seq<T>, p: T -> bool, q: T -> bool)
    requires forall x :: q(x) == !p(x)
    ensures multiset(Filter(s, p)) + multiset(Filter(s, q)) == multiset(s)
    ensures |Filter(s, p)| + |Filter(s, q)| == |s|
    decreases |s|
  {
    if |s| > 0 {
      var a, b := Filter(s[1..], p), Filter(s[1..], q);
      FilterPartition(s[1..], p, q);
      assert s == [s[0]] + s[1..];
      assert multiset(s) == multiset{s[0]} + multiset(s[1..]);
      if p(s[0]) {
        assert Filter(s, p) == [s[0]] + a && Filter(s, q) == b;
        assert multiset(Filter(s, p)) == multiset{s[0]} + multiset(a);
      } else {
        assert Filter(s, p) == a && Filter(s, q) == [s[0]] + b;
        assert multiset(Filter(s, q)) == multiset{s[0]} + multiset(b);
      }
    }
  }

  /** Pairwise distinct keys stay pairwise distinct after filtering. */
  lemma {:induction false} FilterKeepsKeysDistinct<T>(s: seq<T>, p: T -> bool, key: T -> int)
    requires forall i, j :: 0 <= i < j < |s| ==> key(s[i]) != key(s[j])
    ensures forall i, j :: 0 <= i < j < |Filter(s, p)| ==> key(Filter(s, p)[i]) != key(Filter(s, p)[j])
    decreases |s|
  {
    if |s| > 0 {
      var rest := Filter(s[1..], p);
      FilterKeepsKeysDistinct(s[1..], p, key);
      forall x | x in rest
        ensures key(x) != key(s[0])
      {
        FilterMembership(s[1..], p, x);
        var k :| 0 <= k < |s[1..]| && s[1..][k] == x;
        assert s[k + 1] == x;
      }
      var r := Filter(s, p);
      if p(s[0]) {
        assert r == [s[0]] + rest;
        forall i, j | 0 <= i < j < |r|
          ensures key(r[i]) != key(r[j])
        {
          if i == 0 {
            assert r[j] == rest[j - 1] && r[j] in rest;
          } else {
            assert r[i] == rest[i - 1] && r[j] == rest[j - 1];
          }
        }
      } else {
        assert r == rest;
      }
    }
  }
}

=== FILE: text.dfy ===
/** Small string facts the model needs: JavaScript truthiness of an optional
    string and the decimal rendering of a non-negative integer that a template
    literal such as `plugin-${index}` performs. */
module Text {
  import opened Wrappers

  /** An optional string is truthy in JavaScript when it is present and not empty. */
  predicate Truthy(s: Option<string>) {
    s.Some? && s.value != ""
  }

  /** The decimal digit character for `d`. */
  function DigitChar(d: nat): (c: char)
    requires d < 10
    ensures '0' <= c <= '9'
    ensures c as int - '0' as int == d
  {
    (d + '0' as int) as char
  }

  /** Decimal rendering of `n` without leading zeros, as `String(n)` does. */
  function NatToString(n: nat): (s: string)
    ensures 1 <= |s|
    ensures n < 10 <==> |s| == 1
    ensures forall i :: 0 <= i < |s| ==> '0' <= s[i] <= '9'
    decreases n
  {
    if n < 10 then [DigitChar(n)] else NatToString(n / 10) + [DigitChar(n % 10)]
  }

  /** Distinct numbers render as distinct strings. */
  lemma {:induction false} NatToStringInjective(a: nat, b: nat)
    requires NatToString(a) == NatToString(b)
    ensures a == b
    decreases a
  {
    var sa, sb := NatToString(a), NatToString(b);
    if a < 10 || b < 10 {
      assert |sa| == 1 && |sb| == 1;
      assert a < 10 && b < 10;
      assert sa[0] == DigitChar(a) && sb[0] == DigitChar(b);
    } else {
      var pa, pb := NatToString(a / 10), NatToString(b / 10);
      assert sa == pa + [DigitChar(a % 10)];
      assert sb == pb + [DigitChar(b % 10)];
      assert DigitChar(a % 10) == sa[|sa| - 1] == sb[|sb| - 1] == DigitChar(b % 10);
      assert pa == sa[..|sa| - 1] == sb[..|sb| - 1] == pb;
      NatToStringInjective(a / 10, b / 10);
    }
  }

  /** Putting the same text in front of two different strings keeps them different. */
  lemma PrefixedInjective(p: string, a: string, b: string)
    requires p + a == p + b
    ensures a == b
  {
    assert a == (p + a)[|p|..];
    assert b == (p + b)[|p|..];
  }
}

=== FILE: wrappers.dfy ===
/** Optional values and success-or-error outcomes, the two shapes every
    JavaScript `undefined` and every thrown error of the model is written in. */
module Wrappers {

  /** A value that may be absent (JavaScript `undefined`). */
  datatype Option<+T> = None | Some(value: T) {

    /** The wrapped value, or `default` when absent (the `??` operator). */
    function GetOr(default: T): T {
      match this
      case Some(v) => v
      case None => default
    }
  }

  /** A computation that either produces a value or throws an error. */
  datatype Result<+T, +E> = Success(value: T) | Failure(error: E)
}
